=== FILE: README.md ===
# Breakout game simulation, modelled in Dafny

This project models the simulation logic of a single-file browser breakout
game (`game.js`) as a pure state machine. The drawing code is stripped out.
The state is:

- the ball `(x, y, dx, dy)`;
- the paddle position `paddleX`;
- a 5 × 3 brick grid, in which each brick has a stored position and a status
  (status 1 is `alive`, status 0 is destroyed);
- the `score`;
- an outcome: `Playing`, `Won` or `Lost`.

One `Game.Tick` is the non-drawing part of one call to the frame function
`draw()`. It runs the steps in the code's order:

1. the brick layout of `drawBricks`;
2. `collisionDetection()`;
3. the move `x += dx; y += dy`;
4. the side-wall test, then the top/bottom test, both on the position after
   that move;
5. the paddle step.

The two `alert` + reload pairs become the terminal outcomes `Won` and `Lost`.
A finished game never changes again. The inputs of a tick are the key flags
`rightPressed` and `leftPressed`. The arena width `w` and height `h` are
parameters, because the canvas size is not fixed by the code.

Modules, one per part of the program:

- `Bricks` (bricks.dfy): the grid, the layout formula, and the count of
  destroyed bricks.
- `Input` (input.dfy): the key flags and the keydown/keyup handlers.
- `Paddle` (paddle.dfy): the paddle step.
- `Collision` (collision.dfy): the brick scan.
- `Game` (game.dfy): the state, the start state, `Tick`, `Run`, and the
  invariants.

The accounting invariant `Game.Acc` holds in every reachable state of every
arena. It says:

- the score equals the number of destroyed bricks;
- both velocity components have magnitude 2;
- the game is `Won` exactly when every brick is destroyed.

The invariant `Game.Inv` adds two parts:

- the paddle stays strictly within `(-7, w - 68)`. This needs an arena wider
  than 61, since the band is empty otherwise;
- while the game runs, the ball's next position lies within the walls.

The ball part is proved for an arena at least as wide as the paddle (75) and
at least 124 high. That height is the bottom of the brick field (110), plus
the ball radius, plus two steps. `Game.ValidArena` states both bounds.

Where a description of the intended behaviour differs from the code, the
model follows the code:

- The paddle is not clamped to `[0, w - 75]`. The guard is checked before the
  step, so the paddle can end up less than 7 units past either edge.
- The right key does not always win when both keys are held. At the right
  edge, the left branch still fires.
- The ball moves before the wall tests. The tests then look one further step
  ahead, at `x + dx` and `y + dy`.
- The brick loop has no `break`. Because laid-out bricks are disjoint and the
  containment test is strict, at most one brick is struck per frame anyway;
  `Collision.ScanStrikesTheBrickUnderTheBall` proves this.
- The paddle catch tests `paddleX < x < paddleX + 75`, strictly.

The alert and reload do not stop the rest of `draw()` in the code. The model
therefore finishes the frame in which the game ends: the ball and paddle
still move in that frame. If the last brick falls in the same frame in which
the paddle misses, the outcome is `Won`, because that alert comes first.

## Model

| member | source | states |
|---|---|---|
| Bricks.InitialGrid | game.js:31-39 | the start field is 5 columns by 3 rows, every brick standing at position (0, 0), none counted as destroyed |
| Bricks.LayOut | game.js:109-118 | each standing brick is placed at x = c·(75+10)+30, y = r·(20+10)+30; statuses are unchanged and destroyed bricks are not touched |
| Bricks.Inside | game.js:70 | the containment test is strict on all four sides, so touching an edge is no hit |
| Bricks.LaidOutRectanglesDisjoint | game.js:114-115 | no point lies strictly inside the laid-out rectangles of two different bricks |
| Bricks.InsideLaidOutIsInField | game.js:114-115 | a point strictly inside a laid-out brick has 30 < y < 110 |
| Bricks.LayOutPlacesEveryBrick | game.js:112-118 | if destroyed bricks kept their positions, every brick is at its laid-out position after the layout pass |
| Bricks.LayOutKeepsCount | game.js:112-118 | the layout pass does not change the number of destroyed bricks |
| Bricks.Destroy | game.js:74 | the chosen brick becomes destroyed, keeps its position, and no other brick changes |
| Bricks.DestroyKeepsPlaces | game.js:74 | destroying a brick moves no brick |
| Bricks.DestroyCountsOne | game.js:74-75 | destroying a standing brick raises the destroyed count by exactly one |
| Bricks.DeadCountBound | game.js:33-39 | the destroyed count is at most the number of cells and equals it exactly when every brick is destroyed |
| Bricks.FullCountMeansAllDestroyed | game.js:78 | for the 5×3 grid, the destroyed count is at most 15 and is 15 exactly when no brick stands |
| Input.KeyDown | game.js:45-51 | "Right"/"ArrowRight" set the right flag, "Left"/"ArrowLeft" set the left flag, any other key changes nothing |
| Input.KeyUp | game.js:53-59 | the same keys clear the same flags, any other key changes nothing |
| Input.Replay | game.js:42-59 | handling key events in order leaves a flag untouched when no event names its direction |
| Input.ReplayFollowsLastEvent | game.js:45-59 | after any sequence of key events, each flag is what the last event naming its direction made it |
| Input.ReplayFromReleased | game.js:18-59 | from both flags released, a flag is set exactly when the last event naming its direction was a press, so only after some press of one of its keys |
| Input.LastPressHasWitness | game.js:45-59 | a flag that the last event naming its direction left pressed, starting from released, was pressed by some event |
| Input.PressThenReleaseForgetsPress | game.js:45-59 | a press followed by the release of the same key has the effect of the release alone |
| Paddle.Move | game.js:177-181 | the paddle moves by exactly +7, -7 or 0; it moves right exactly when the right flag is set and paddleX < w-75, and left exactly when that fails, the left flag is set and paddleX > 0 |
| Paddle.MoveKeepsBand | game.js:177-181 | a paddle strictly within (-7, w-68) stays there, whatever keys are held |
| Paddle.BothKeysAtRightEdgeMovesLeft | game.js:177-181 | with both keys held and paddleX ≥ w-75 (and > 0), the paddle moves left |
| Paddle.BothKeysWithRoomMovesRight | game.js:177-178 | with both keys held and room on the right, the paddle moves right |
| Paddle.RightStepOvershootsEdge | game.js:177-178 | the guard is no clamp: at w = 100 a paddle at 23 steps to 30, past the edge at 25 |
| Collision.Strike | game.js:72-81 | a hit negates dy and destroys brick (c, r) in place, changes no other brick, and sets the win flag when the new score reaches 15 |
| Collision.StrikeScoresOne | game.js:74-80 | a hit raises the score and the destroyed count together, by exactly one; while the score counts the destroyed bricks, the win fires exactly when no brick is left standing |
| Collision.Visit | game.js:67-76 | one cell's test can only flip dy, raise the score, and destroy bricks; a destroyed brick is skipped and left unchanged |
| Collision.ScanFrom | game.js:65-85 | the whole scan only flips dy, never lowers the score, never revives a brick and never touches a destroyed brick |
| Collision.CollisionDetection | game.js:64-86 | the scan from the first cell keeps the grid's shape, only negates dy, never lowers the score and never revives a brick |
| Collision.ScanSkips | game.js:65-76 | a scan over cells none of which is hit leaves everything unchanged |
| Collision.Hits | game.js:69-70 | a cell is hit when its brick is standing and strictly contains the ball centre |
| Collision.HitIsUnique | game.js:69-70 | once the field is laid out, at most one standing brick strictly contains a given point |
| Collision.ScanStrikesOnly | game.js:65-76 | a scan over cells of which exactly one is hit performs exactly that one strike |
| Collision.ScanStrikesTheBrickUnderTheBall | game.js:64-86 | the loop without a break strikes exactly the standing brick that contains the ball centre, and changes nothing when there is none |
| Game.Init | game.js:6-39 | the ball starts at (w/2, h-30) moving (2, -2), the paddle is centred, every brick stands, the score is 0 and the game runs |
| Game.BrickPhase | game.js:143-149 | layout then collision: dy is only negated, the score never falls, no brick is revived |
| Game.SideWalls | game.js:156-158 | dx is kept exactly when x+dx lies within [10, w-10], and negated otherwise |
| Game.TopAndBottom | game.js:161-174 | dy is negated above the top wall; past the bottom wall (and not above the top) the ball misses exactly when its centre is not strictly over the paddle, and bounces otherwise; a position within the walls changes nothing |
| Game.Tick | game.js:138-181 | a finished game is unchanged; a running frame takes its bricks, score and win from the brick phase, moves the ball by (dx, dy-after-collision), takes the side-wall bounce of the moved position, takes dy and the loss from the top/bottom test (a win announced in the same frame comes first), and takes the paddle step `Paddle.Move` of the held keys |
| Game.TickStrikesTheBrickUnderTheBall | game.js:64-86 | in a running frame, the standing laid-out brick under the ball centre is destroyed and no other brick changes, the score rises by one and the ball moves back by its old dy; with no brick under the centre the frame only lays the field out and keeps the score |
| Game.TickPaddleFollowsKeys | game.js:177-181 | in a running frame the paddle steps right exactly when the right flag is set and paddleX < w-75; otherwise left exactly when the left flag is set and paddleX > 0, even with the right flag set; else it stays |
| Game.TickBouncesOffSideWalls | game.js:152-157 | in a running frame the ball moves by dx first, then keeps dx exactly when the position after that lies within [10, w-10] and negates it otherwise |
| Game.InitSatisfiesAcc | game.js:6-39 | in every arena the start state satisfies the accounting invariant: score = destroyed count = 0, |dx| = |dy| = 2, not won |
| Game.InitSatisfiesInv | game.js:6-39 | in a valid arena the start state also has the paddle in its band and the ball's next position inside the walls |
| Game.BrickPhaseCases | game.js:64-86 | the brick phase either changes only positions, or strikes one standing brick that contains the ball centre |
| Game.BrickPhaseScoresAtMostOne | game.js:65-75 | across the brick phase the score stays equal to the destroyed count and rises by at most one |
| Game.TickScoresAtMostOne | game.js:74-75 | across a frame the score stays equal to the destroyed count and rises by at most one, and destroyed bricks keep their laid-out positions |
| Game.TickWinsExactlyWhenFieldCleared | game.js:78-80 | the frame that destroys the last brick ends the game as Won; Won holds exactly when all bricks are destroyed, and exactly when the score is 15 |
| Game.TickLosesExactlyWhenPaddleMisses | game.js:161-173 | the game is Lost exactly when the win did not fire and the next position passes the bottom (but not the top) with the centre not over the paddle; a top hit or a catch negates dy |
| Game.FirstFrameStrikesLaidOutBrick | game.js:143-149 | on the first frame a ball at (50, 40) strikes brick (0, 0), because layout runs before collision: score 1, dy turned, still playing |
| Game.TickKeepsSpeed | game.js:156-168 | |dx| = 2 and |dy| = 2 are kept by every frame |
| Game.BrickPhaseTurnsOnlyInField | game.js:70-72 | the brick phase flips dy only when the ball centre lies among the brick rows, 30 < y < 110 |
| Game.SideWallsKeepBallInside | game.js:152-158 | with the next position inside, the moved centre and the position after it stay within [10, w-10] |
| Game.TopAndBottomKeepBallInside | game.js:152-174 | the moved centre stays within [10, h-10], and so does the position after it unless the paddle missed |
| Game.TickKeepsBallInArena | game.js:149-174 | in a running game the ball centre never crosses a wall, and the next position stays inside while the game runs |
| Game.TickPreservesAcc | game.js:138-181 | in every arena, each frame keeps score = destroyed count, |dx| = |dy| = 2 and Won ⇔ all destroyed |
| Game.TickKeepsBand | game.js:177-181 | each frame keeps the paddle strictly within (-7, w-68) |
| Game.TickPreservesInv | game.js:138-181 | in a valid arena every frame preserves the whole invariant |
| Game.Run | game.js:184-188 | a sequence of frames keeps the grid's shape, and a game that has ended never runs again |
| Game.RunPreservesAcc | game.js:184-188 | in every arena, any sequence of frames preserves the accounting invariant |
| Game.RunKeepsBand | game.js:177-188 | any sequence of frames keeps the paddle within its band |
| Game.RunPreservesInv | game.js:184-188 | in a valid arena, any sequence of frames preserves the whole invariant |
| Game.ReachableStates | game.js:138-188 | for every arena, in every reachable state: score = destroyed count ≤ 15, Won ⇔ score = 15 ⇔ all destroyed, and |dx| = |dy| = 2 |
| Game.ReachablePaddleInBand | game.js:177-181 | starting from the centred paddle of line 15, in every arena wider than 61 (the band is empty otherwise), the paddle steps keep it within -7 < paddleX < w-68 in every reachable state |
| Game.ReachableBallInArena | game.js:152-174 | in a valid arena, the ball's next position lies within the walls in every reachable running state |
| Game.RunFrozenAfterEnd | game.js:79-80 | once Won or Lost, any further frames leave the state exactly as it is |
| Game.RunIsMonotone | game.js:69-75 | over any run the score never falls and no destroyed brick stands again |

## Left out

- Drawing: `drawBall`, `drawPaddle`, `drawScore`, `clearRect` and the canvas calls inside `drawBricks` only paint the state.
- `alert` and `document.location.reload()` are replaced by the terminal outcomes; the page reload and the fresh game after it are not modelled.
- `requestAnimationFrame` scheduling is replaced by `Game.Run`, one frame per input. The `addEventListener` registration is replaced by the key flags being a frame input (`Input.Replay` gives the flags after a sequence of key events).
- JavaScript numbers are IEEE-754 doubles. Every quantity here is a small integer or half-integer, so the model uses exact `real` arithmetic.
- The canvas size is unknown. `w` and `h` are parameters. The score, win and speed accounting (`Game.Acc`, `Game.ReachableStates`) holds for every `w` and `h`. The paddle band needs a width above 61 (`Game.ReachablePaddleInBand`). Only the ball-containment part of `Game.Inv` assumes `Game.ValidArena`, a sufficient (not necessary) bound: a width of at least 75 leaves the ball room to move between the side walls (`Game.SideWallsKeepBallInside`), and a height of at least 124 keeps the brick field, which reaches down to 110, above the band in which the ball turns at the bottom wall. The lemmas that assume it are `Game.InitSatisfiesInv`, `Game.TickKeepsBallInArena`, `Game.TickPreservesInv`, `Game.RunPreservesInv` and `Game.ReachableBallInArena`. Smaller canvases are not analysed for ball containment.
- `paddleHeight` (line 13) is only used for drawing and does not appear.

=== FILE: bricks.dfy ===
/**
  The brick field of the breakout game: a fixed 5 x 3 grid, indexed first by
  column and then by row, the layout formula that places each brick, and the
  count of destroyed bricks that the score has to agree with.
 */
module Bricks {

  const BrickRowCount: nat := 3
  const BrickColumnCount: nat := 5
  const BrickCount: nat := BrickRowCount * BrickColumnCount
  const BrickWidth: real := 75.0
  const BrickHeight: real := 20.0
  const BrickPadding: real := 10.0
  const BrickOffsetTop: real := 30.0
  const BrickOffsetLeft: real := 30.0

  /** A brick's stored position and its status (status 1 is `alive`, status 0 is destroyed). */
  datatype Brick = Brick(x: real, y: real, alive: bool)

  /** `g[c][r]` is the brick in column `c`, row `r`. */
  type Grid = seq<seq<Brick>>

  predicate InGrid(c: int, r: int) {
    0 <= c < BrickColumnCount && 0 <= r < BrickRowCount
  }

  /** Every column holds one brick per row. */
  predicate Uniform(g: Grid) {
    forall c :: 0 <= c < |g| ==> |g[c]| == BrickRowCount
  }

  predicate WellShaped(g: Grid) {
    |g| == BrickColumnCount && Uniform(g)
  }

  /** Left edge of every brick in column `c`. */
  function BrickX(c: nat): real {
    (c as real) * (BrickWidth + BrickPadding) + BrickOffsetLeft
  }

  /** Top edge of every brick in row `r`. */
  function BrickY(r: nat): real {
    (r as real) * (BrickHeight + BrickPadding) + BrickOffsetTop
  }

  /** The bottom edge of the last row: no brick reaches lower. */
  const FieldBottom: real := BrickY(BrickRowCount - 1) + BrickHeight

  predicate LaidOutAt(b: Brick, c: nat, r: nat) {
    b.x == BrickX(c) && b.y == BrickY(r)
  }

  /** Every brick still standing sits at its laid-out position. */
  ghost predicate AliveLaidOut(g: Grid)
    requires WellShaped(g)
  {
    forall c, r :: InGrid(c, r) && g[c][r].alive ==> LaidOutAt(g[c][r], c, r)
  }

  /** Every destroyed brick kept the position it had when it was destroyed. */
  ghost predicate DeadLaidOut(g: Grid)
    requires WellShaped(g)
  {
    forall c, r :: InGrid(c, r) && !g[c][r].alive ==> LaidOutAt(g[c][r], c, r)
  }

  /** Every brick, standing or not, sits at its laid-out position. */
  ghost predicate AllLaidOut(g: Grid)
    requires WellShaped(g)
  {
    forall c, r :: InGrid(c, r) ==> LaidOutAt(g[c][r], c, r)
  }

  predicate AllDestroyed(g: Grid) {
    forall c, r :: 0 <= c < |g| && 0 <= r < |g[c]| ==> !g[c][r].alive
  }

  /** Open-interval test of a point against a brick's rectangle: touching an edge is no hit. */
  predicate Inside(b: Brick, x: real, y: real) {
    b.x < x < b.x + BrickWidth && b.y < y < b.y + BrickHeight
  }

  /** The field at start-up: every brick standing, every position still zero. */
  function InitialGrid(): (g: Grid)
    ensures WellShaped(g)
    ensures forall c, r :: InGrid(c, r) ==> g[c][r].alive && g[c][r].x == 0.0 && g[c][r].y == 0.0
    ensures DeadLaidOut(g)
    ensures DeadCount(g) == 0
  {
    var g := seq(BrickColumnCount, c => seq(BrickRowCount, r => Brick(0.0, 0.0, true)));
    NoneDestroyedCountsZero(g);
    g
  }

  /** The position update of the drawing pass: standing bricks are placed, destroyed ones are skipped. */
  function LayOut(g: Grid): (g': Grid)
    requires WellShaped(g)
    ensures WellShaped(g')
    ensures forall c, r :: InGrid(c, r) ==> g'[c][r].alive == g[c][r].alive
    ensures forall c, r :: InGrid(c, r) && g[c][r].alive ==> LaidOutAt(g'[c][r], c, r)
    ensures forall c, r :: InGrid(c, r) && !g[c][r].alive ==> g'[c][r] == g[c][r]
    ensures AliveLaidOut(g')
  {
    seq(|g|, c requires 0 <= c < |g| =>
      seq(|g[c]|, r requires 0 <= r < |g[c]| =>
        if g[c][r].alive then Brick(BrickX(c), BrickY(r), true) else g[c][r]))
  }

  /** Sets one brick's status to destroyed; its position and every other brick stay as they were. */
  function Destroy(g: Grid, c: nat, r: nat): (g': Grid)
    requires WellShaped(g) && InGrid(c, r)
    ensures WellShaped(g')
    ensures !g'[c][r].alive && g'[c][r].x == g[c][r].x && g'[c][r].y == g[c][r].y
    ensures forall i, j :: InGrid(i, j) && (i, j) != (c, r) ==> g'[i][j] == g[i][j]
  {
    g[c := g[c][r := g[c][r].(alive := false)]]
  }

  function Dead(b: Brick): nat {
    if b.alive then 0 else 1
  }

  function DeadIn(col: seq<Brick>): nat {
    if |col| == 0 then 0 else DeadIn(col[..|col| - 1]) + Dead(col[|col| - 1])
  }

  /** Number of destroyed bricks in the whole field. */
  function DeadCount(g: Grid): nat {
    if |g| == 0 then 0 else DeadCount(g[..|g| - 1]) + DeadIn(g[|g| - 1])
  }

  // ---------------------------------------------------------------------------
  // Layout geometry

  /** Two bricks' laid-out rectangles share no interior point: the padding separates them. */
  lemma LaidOutRectanglesDisjoint(c1: nat, r1: nat, c2: nat, r2: nat, x: real, y: real)
    requires InGrid(c1, r1) && InGrid(c2, r2)
    requires Inside(Brick(BrickX(c1), BrickY(r1), true), x, y)
    requires Inside(Brick(BrickX(c2), BrickY(r2), true), x, y)
    ensures c1 == c2 && r1 == r2
  {
  }

  /** A point inside some laid-out brick lies within the band of rows. */
  lemma InsideLaidOutIsInField(c: nat, r: nat, x: real, y: real)
    requires InGrid(c, r)
    requires Inside(Brick(BrickX(c), BrickY(r), true), x, y)
    ensures BrickOffsetTop < y < FieldBottom
  {
    assert (r as real) <= (BrickRowCount - 1) as real;
  }

  /** Once the destroyed bricks are in place, a layout pass leaves every brick in place. */
  lemma LayOutPlacesEveryBrick(g: Grid)
    requires WellShaped(g) && DeadLaidOut(g)
    ensures AllLaidOut(LayOut(g))
  {
  }

  /** Destroying a brick moves nothing. */
  lemma DestroyKeepsPlaces(g: Grid, c: nat, r: nat)
    requires WellShaped(g) && InGrid(c, r) && AllLaidOut(g)
    ensures AllLaidOut(Destroy(g, c, r))
  {
  }

  // ---------------------------------------------------------------------------
  // Counting destroyed bricks

  lemma {:induction false} DeadInUpdate(col: seq<Brick>, r: nat, b: Brick)
    requires r < |col|
    ensures DeadIn(col[r := b]) == DeadIn(col) - Dead(col[r]) + Dead(b)
    decreases |col|
  {
    var n := |col| - 1;
    if r < n {
      assert col[r := b][..n] == col[..n][r := b];
      DeadInUpdate(col[..n], r, b);
    } else {
      assert col[r := b][..n] == col[..n];
    }
  }

  lemma {:induction false} DeadCountUpdate(g: Grid, c: nat, col: seq<Brick>)
    requires c < |g|
    ensures DeadCount(g[c := col]) == DeadCount(g) - DeadIn(g[c]) + DeadIn(col)
    decreases |g|
  {
    var n := |g| - 1;
    if c < n {
      assert g[c := col][..n] == g[..n][c := col];
      DeadCountUpdate(g[..n], c, col);
    } else {
      assert g[c := col][..n] == g[..n];
    }
  }

  /** Destroying a standing brick adds exactly one to the destroyed count. */
  lemma DestroyCountsOne(g: Grid, c: nat, r: nat)
    requires WellShaped(g) && InGrid(c, r) && g[c][r].alive
    ensures DeadCount(Destroy(g, c, r)) == DeadCount(g) + 1
  {
    DeadInUpdate(g[c], r, g[c][r].(alive := false));
    DeadCountUpdate(g, c, g[c][r := g[c][r].(alive := false)]);
  }

  lemma {:induction false} DeadInSameStatus(a: seq<Brick>, b: seq<Brick>)
    requires |a| == |b|
    requires forall j :: 0 <= j < |a| ==> a[j].alive == b[j].alive
    ensures DeadIn(a) == DeadIn(b)
    decreases |a|
  {
    if |a| > 0 {
      DeadInSameStatus(a[..|a| - 1], b[..|b| - 1]);
    }
  }

  /** The destroyed count depends on the statuses only, never on the positions. */
  lemma {:induction false} DeadCountSameStatus(g: Grid, h: Grid)
    requires |g| == |h|
    requires forall c :: 0 <= c < |g| ==> |g[c]| == |h[c]|
    requires forall c, r :: 0 <= c < |g| && 0 <= r < |g[c]| ==> g[c][r].alive == h[c][r].alive
    ensures DeadCount(g) == DeadCount(h)
    decreases |g|
  {
    if |g| > 0 {
      var n := |g| - 1;
      DeadInSameStatus(g[n], h[n]);
      DeadCountSameStatus(g[..n], h[..n]);
    }
  }

  /** The layout pass changes positions only, so it keeps the destroyed count. */
  lemma LayOutKeepsCount(g: Grid)
    requires WellShaped(g)
    ensures DeadCount(LayOut(g)) == DeadCount(g)
  {
    DeadCountSameStatus(g, LayOut(g));
  }

  lemma {:induction false} DeadInBound(col: seq<Brick>)
    ensures DeadIn(col) <= |col|
    ensures DeadIn(col) == |col| <==> forall j :: 0 <= j < |col| ==> !col[j].alive
    decreases |col|
  {
    if |col| > 0 {
      var n := |col| - 1;
      DeadInBound(col[..n]);
      if DeadIn(col) == |col| {
        forall j | 0 <= j < |col| ensures !col[j].alive {
          if j < n {
            assert col[..n][j] == col[j];
          }
        }
      }
      if forall j :: 0 <= j < |col| ==> !col[j].alive {
        assert forall j :: 0 <= j < n ==> !col[..n][j].alive;
      }
    }
  }

  /** The destroyed count never exceeds the number of bricks and reaches it exactly when all are destroyed. */
  lemma {:induction false} DeadCountBound(g: Grid)
    requires Uniform(g)
    ensures DeadCount(g) <= |g| * BrickRowCount
    ensures DeadCount(g) == |g| * BrickRowCount <==> AllDestroyed(g)
    decreases |g|
  {
    if |g| > 0 {
      var n := |g| - 1;
      assert Uniform(g[..n]);
      DeadCountBound(g[..n]);
      DeadInBound(g[n]);
      if DeadCount(g) == |g| * BrickRowCount {
        forall c, r | 0 <= c < |g| && 0 <= r < |g[c]| ensures !g[c][r].alive {
          if c < n {
            assert g[..n][c] == g[c];
          }
        }
      }
      if AllDestroyed(g) {
        assert AllDestroyed(g[..n]) by {
          forall c, r | 0 <= c < n && 0 <= r < |g[..n][c]| ensures !g[..n][c][r].alive {
            assert g[..n][c] == g[c];
          }
        }
      }
    }
  }

  lemma {:induction false} NoneDestroyedCountsZero(g: Grid)
    requires forall c, r :: 0 <= c < |g| && 0 <= r < |g[c]| ==> g[c][r].alive
    ensures DeadCount(g) == 0
    decreases |g|
  {
    if |g| > 0 {
      var n := |g| - 1;
      NoneDeadInColumn(g[n]);
      assert forall c, r :: 0 <= c < n && 0 <= r < |g[..n][c]| ==> g[..n][c][r].alive;
      NoneDestroyedCountsZero(g[..n]);
    }
  }

  lemma {:induction false} NoneDeadInColumn(col: seq<Brick>)
    requires forall j :: 0 <= j < |col| ==> col[j].alive
    ensures DeadIn(col) == 0
    decreases |col|
  {
    if |col| > 0 {
      NoneDeadInColumn(col[..|col| - 1]);
    }
  }

  /** For the game's grid: the count is at most 15, and 15 means every brick is gone. */
  lemma FullCountMeansAllDestroyed(g: Grid)
    requires WellShaped(g)
    ensures DeadCount(g) <= BrickCount
    ensures DeadCount(g) == BrickCount <==> AllDestroyed(g)
  {
    DeadCountBound(g);
  }
}

=== FILE: collision.dfy ===
/**
  Brick collision detection. The source scans every cell, column by column
  and within a column row by row, and never stops early: each standing brick
  whose rectangle contains the ball's centre flips the vertical velocity, is
  destroyed and scores a point. Because laid-out rectangles are disjoint, the
  scan strikes at most one brick, which is what `ScanStrikesTheBrickUnderTheBall`
  proves.
 */
module Collision {
  import opened Bricks

  /** What the scan reads and writes: the field, the vertical velocity, the score, and whether the win fired. */
  datatype Impact = Impact(bricks: Grid, dy: real, score: nat, won: bool)

  /** The standing brick at `(c, r)` contains the point `(x, y)`. */
  predicate Hits(g: Grid, c: int, r: int, x: real, y: real)
    requires WellShaped(g)
  {
    InGrid(c, r) && g[c][r].alive && Inside(g[c][r], x, y)
  }

  /** Scan position `k` visits column `k / 3`, row `k % 3`: columns outer, rows inner. */
  predicate HitsAt(g: Grid, k: int, x: real, y: real)
    requires WellShaped(g)
  {
    0 <= k < BrickCount && Hits(g, k / BrickRowCount, k % BrickRowCount, x, y)
  }

  /** The effect of one hit: flip `dy`, destroy the brick, add a point, and fire the win when the score reaches 15. */
  function Strike(st: Impact, c: nat, r: nat): (st': Impact)
    requires WellShaped(st.bricks) && InGrid(c, r) && st.bricks[c][r].alive
    ensures WellShaped(st'.bricks)
    ensures st'.dy == -st.dy
    ensures !st'.bricks[c][r].alive && st'.bricks[c][r].x == st.bricks[c][r].x && st'.bricks[c][r].y == st.bricks[c][r].y
    ensures forall i, j :: InGrid(i, j) && (i, j) != (c, r) ==> st'.bricks[i][j] == st.bricks[i][j]
    ensures st'.won <==> st.won || st'.score == BrickCount
  {
    var score := st.score + 1;
    Impact(Destroy(st.bricks, c, r), -st.dy, score, st.won || score == BrickCount)
  }

  /**
    A strike raises the score and the destroyed count together, by exactly
    one; so while the score counts the destroyed bricks, the win fires
    exactly when the strike leaves no brick standing.
   */
  lemma StrikeScoresOne(st: Impact, c: nat, r: nat)
    requires WellShaped(st.bricks) && InGrid(c, r) && st.bricks[c][r].alive
    ensures Strike(st, c, r).score == st.score + 1
    ensures DeadCount(Strike(st, c, r).bricks) == DeadCount(st.bricks) + 1
    ensures st.score == DeadCount(st.bricks) ==>
              (Strike(st, c, r).won <==> st.won || AllDestroyed(Strike(st, c, r).bricks))
  {
    DestroyCountsOne(st.bricks, c, r);
    FullCountMeansAllDestroyed(Strike(st, c, r).bricks);
  }

  /** One position of the scan: the cell at scan position `k` is tested and, on a hit, struck. */
  function Visit(st: Impact, k: nat, x: real, y: real): (st': Impact)
    requires WellShaped(st.bricks) && k < BrickCount
    ensures WellShaped(st'.bricks)
    ensures st'.dy == st.dy || st'.dy == -st.dy
    ensures st.score <= st'.score
    ensures forall c, r :: InGrid(c, r) && st'.bricks[c][r].alive ==> st.bricks[c][r].alive
    ensures forall c, r :: InGrid(c, r) && !st.bricks[c][r].alive ==> st'.bricks[c][r] == st.bricks[c][r]
  {
    if HitsAt(st.bricks, k, x, y) then Strike(st, k / BrickRowCount, k % BrickRowCount) else st
  }

  /** The scan from position `k` to the end, with no early exit. */
  function ScanFrom(st: Impact, k: nat, x: real, y: real): (st': Impact)
    requires WellShaped(st.bricks) && k <= BrickCount
    ensures WellShaped(st'.bricks)
    ensures st'.dy == st.dy || st'.dy == -st.dy
    ensures st.score <= st'.score
    ensures forall c, r :: InGrid(c, r) && st'.bricks[c][r].alive ==> st.bricks[c][r].alive
    ensures forall c, r :: InGrid(c, r) && !st.bricks[c][r].alive ==> st'.bricks[c][r] == st.bricks[c][r]
    decreases BrickCount - k
  {
    if k == BrickCount then st else ScanFrom(Visit(st, k, x, y), k + 1, x, y)
  }

  /** Distinct scan positions visit distinct cells. */
  lemma CellsDistinct(j: nat, h: nat)
    requires j < BrickCount && h < BrickCount && j != h
    ensures InGrid(j / BrickRowCount, j % BrickRowCount)
    ensures (j / BrickRowCount, j % BrickRowCount) != (h / BrickRowCount, h % BrickRowCount)
  {
  }

  /** The whole scan, for the ball centre `(x, y)`. */
  function CollisionDetection(st: Impact, x: real, y: real): (st': Impact)
    requires WellShaped(st.bricks)
    ensures WellShaped(st'.bricks)
    ensures st'.dy == st.dy || st'.dy == -st.dy
    ensures st.score <= st'.score
    ensures forall c, r :: InGrid(c, r) && st'.bricks[c][r].alive ==> st.bricks[c][r].alive
  {
    ScanFrom(st, 0, x, y)
  }

  /** With the field laid out, at most one standing brick contains any point. */
  lemma HitIsUnique(g: Grid, c1: int, r1: int, c2: int, r2: int, x: real, y: real)
    requires WellShaped(g) && AliveLaidOut(g)
    requires Hits(g, c1, r1, x, y) && Hits(g, c2, r2, x, y)
    ensures c1 == c2 && r1 == r2
  {
    LaidOutRectanglesDisjoint(c1, r1, c2, r2, x, y);
  }

  /** A position that is not hit passes the scan on unchanged. */
  lemma ScanPassesMiss(st: Impact, k: nat, x: real, y: real)
    requires WellShaped(st.bricks) && k < BrickCount && !HitsAt(st.bricks, k, x, y)
    ensures ScanFrom(st, k, x, y) == ScanFrom(st, k + 1, x, y)
  {
    assert Visit(st, k, x, y) == st;
  }

  /** A scan over positions where nothing is hit changes nothing. */
  lemma {:induction false} ScanSkips(st: Impact, k: nat, x: real, y: real)
    requires WellShaped(st.bricks) && k <= BrickCount
    requires forall j :: k <= j < BrickCount ==> !HitsAt(st.bricks, j, x, y)
    ensures ScanFrom(st, k, x, y) == st
    decreases BrickCount - k
  {
    if k < BrickCount {
      ScanPassesMiss(st, k, x, y);
      ScanSkips(st, k + 1, x, y);
    }
  }

  /** After the strike at `h`, no later position is hit that was not hit before. */
  lemma StrikeKeepsLaterMisses(st: Impact, h: nat, x: real, y: real)
    requires WellShaped(st.bricks) && h < BrickCount
    requires HitsAt(st.bricks, h, x, y)
    requires forall j :: h < j < BrickCount ==> !HitsAt(st.bricks, j, x, y)
    ensures forall j :: h + 1 <= j < BrickCount ==> !HitsAt(Strike(st, h / BrickRowCount, h % BrickRowCount).bricks, j, x, y)
  {
    var g := Strike(st, h / BrickRowCount, h % BrickRowCount).bricks;
    forall j | h + 1 <= j < BrickCount
      ensures !HitsAt(g, j, x, y)
    {
      CellsDistinct(j, h);
      assert g[j / BrickRowCount][j % BrickRowCount] == st.bricks[j / BrickRowCount][j % BrickRowCount];
      assert !HitsAt(st.bricks, j, x, y);
    }
  }

  /** A scan that starts at the one position hit performs exactly that strike. */
  lemma ScanStrikesHere(st: Impact, h: nat, x: real, y: real)
    requires WellShaped(st.bricks) && h < BrickCount
    requires HitsAt(st.bricks, h, x, y)
    requires forall j :: h < j < BrickCount ==> !HitsAt(st.bricks, j, x, y)
    ensures ScanFrom(st, h, x, y) == Strike(st, h / BrickRowCount, h % BrickRowCount)
  {
    var next := Strike(st, h / BrickRowCount, h % BrickRowCount);
    assert Visit(st, h, x, y) == next;
    StrikeKeepsLaterMisses(st, h, x, y);
    ScanSkips(next, h + 1, x, y);
  }

  /** A scan over positions where exactly one, `h`, is hit performs exactly that strike. */
  lemma {:induction false} ScanStrikesOnly(st: Impact, k: nat, h: nat, x: real, y: real)
    requires WellShaped(st.bricks) && k <= h < BrickCount
    requires HitsAt(st.bricks, h, x, y)
    requires forall j :: k <= j < BrickCount && j != h ==> !HitsAt(st.bricks, j, x, y)
    ensures ScanFrom(st, k, x, y) == Strike(st, h / BrickRowCount, h % BrickRowCount)
    decreases BrickCount - k
  {
    if k == h {
      ScanStrikesHere(st, h, x, y);
    } else {
      assert !HitsAt(st.bricks, k, x, y);
      assert Visit(st, k, x, y) == st;
      ScanStrikesOnly(st, k + 1, h, x, y);
    }
  }

  /**
    The scan without a break behaves like a single lookup: when the standing
    brick at `(c, r)` contains the ball's centre, that brick and only that
    brick is struck; when none does, nothing changes.
   */
  lemma ScanStrikesTheBrickUnderTheBall(st: Impact, x: real, y: real)
    requires WellShaped(st.bricks) && AliveLaidOut(st.bricks)
    ensures forall c, r :: Hits(st.bricks, c, r, x, y) ==> CollisionDetection(st, x, y) == Strike(st, c, r)
    ensures (forall c, r :: !Hits(st.bricks, c, r, x, y)) ==> CollisionDetection(st, x, y) == st
  {
    forall c, r | Hits(st.bricks, c, r, x, y)
      ensures CollisionDetection(st, x, y) == Strike(st, c, r)
    {
      var h := c * BrickRowCount + r;
      assert h / BrickRowCount == c && h % BrickRowCount == r;
      forall j | 0 <= j < BrickCount && j != h
        ensures !HitsAt(st.bricks, j, x, y)
      {
        if HitsAt(st.bricks, j, x, y) {
          HitIsUnique(st.bricks, c, r, j / BrickRowCount, j % BrickRowCount, x, y);
          assert false;
        }
      }
      ScanStrikesOnly(st, 0, h, x, y);
    }
    if forall c, r :: !Hits(st.bricks, c, r, x, y) {
      forall j | 0 <= j < BrickCount
        ensures !HitsAt(st.bricks, j, x, y)
      {
        assert !Hits(st.bricks, j / BrickRowCount, j % BrickRowCount, x, y);
      }
      ScanSkips(st, 0, x, y);
    }
  }
}

=== FILE: game.dfy ===
/**
  The simulation part of the game's frame function as a pure state machine.
  One `Tick` performs, in the source's order: brick layout, brick collision,
  the move `x += dx; y += dy`, the side-wall test and the top/bottom test on
  the position after that move, and the paddle step. The two alerts that end
  the game become the outcomes `Won` and `Lost`; a finished game no longer
  changes. The arena width `w` and height `h` are parameters.
 */
module Game {
  import opened Bricks
  import opened Input
  import opened Paddle
  import opened Collision

  const BallRadius: real := 10.0
  /** The magnitude of both velocity components at start-up. */
  const Speed: real := 2.0

  datatype Ball = Ball(x: real, y: real, dx: real, dy: real)

  datatype Outcome = Playing | Won | Lost

  datatype State = State(ball: Ball, paddleX: real, bricks: Grid, score: nat, outcome: Outcome)

  function Abs(v: real): real {
    if v < 0.0 then -v else v
  }

  /** The state the page starts in, for an arena of width `w` and height `h`. */
  function Init(w: real, h: real): (s: State)
    ensures s.ball.x == w / 2.0 && s.ball.y == h - 30.0
    ensures s.ball.dx == Speed && s.ball.dy == -Speed
    ensures s.paddleX + PaddleWidth / 2.0 == w / 2.0
    ensures WellShaped(s.bricks) && forall c, r :: InGrid(c, r) ==> s.bricks[c][r].alive
    ensures s.score == 0 && s.outcome == Playing
  {
    State(Ball(w / 2.0, h - 30.0, Speed, -Speed), (w - PaddleWidth) / 2.0, InitialGrid(), 0, Playing)
  }

  /** Layout followed by the brick scan, on the ball's position before it moves. */
  function BrickPhase(s: State): (hit: Impact)
    requires WellShaped(s.bricks)
    ensures WellShaped(hit.bricks)
    ensures hit.dy == s.ball.dy || hit.dy == -s.ball.dy
    ensures s.score <= hit.score
    ensures forall c, r :: InGrid(c, r) && hit.bricks[c][r].alive ==> s.bricks[c][r].alive
  {
    CollisionDetection(Impact(LayOut(s.bricks), s.ball.dy, s.score, false), s.ball.x, s.ball.y)
  }

  /** The side-wall test: `dx` flips when the next position would cross either side wall. */
  function SideWalls(x: real, dx: real, w: real): (dx': real)
    ensures dx' == dx || dx' == -dx
    ensures BallRadius <= x + dx <= w - BallRadius ==> dx' == dx
    ensures !(BallRadius <= x + dx <= w - BallRadius) ==> dx' == -dx
  {
    if x + dx > w - BallRadius || x + dx < BallRadius then -dx else dx
  }

  /** The vertical velocity after the top/bottom test, and whether the paddle missed the ball. */
  datatype Vertical = Vertical(dy: real, missed: bool)

  /** The top test, else the bottom test with the paddle catch on the ball's centre. */
  function TopAndBottom(x: real, y: real, dy: real, paddleX: real, h: real): (v: Vertical)
    ensures v.dy == dy || v.dy == -dy
    ensures v.missed ==> v.dy == dy && y + dy > h - BallRadius && !OverPaddle(x, paddleX)
    ensures BallRadius <= y + dy <= h - BallRadius ==> v == Vertical(dy, false)
    ensures y + dy < BallRadius ==> v == Vertical(-dy, false)
    ensures BallRadius <= y + dy && y + dy > h - BallRadius ==>
              (v.missed <==> !OverPaddle(x, paddleX)) && (!v.missed ==> v.dy == -dy)
  {
    if y + dy < BallRadius then Vertical(-dy, false)
    else if y + dy > h - BallRadius then
      if x > paddleX && x < paddleX + PaddleWidth then Vertical(-dy, false) else Vertical(dy, true)
    else Vertical(dy, false)
  }

  /** Whether the ball's centre lies strictly between the paddle's two ends. */
  predicate OverPaddle(x: real, paddleX: real) {
    paddleX < x < paddleX + PaddleWidth
  }

  /** One frame of the game. */
  function Tick(s: State, keys: Keys, w: real, h: real): (s': State)
    requires WellShaped(s.bricks)
    ensures WellShaped(s'.bricks)
    ensures s.outcome != Playing ==> s' == s
    ensures s'.ball.dx == s.ball.dx || s'.ball.dx == -s.ball.dx
    ensures s'.ball.dy == s.ball.dy || s'.ball.dy == -s.ball.dy
    ensures s.score <= s'.score
    ensures forall c, r :: InGrid(c, r) && s'.bricks[c][r].alive ==> s.bricks[c][r].alive
    ensures s'.paddleX == s.paddleX + PaddleStep || s'.paddleX == s.paddleX - PaddleStep || s'.paddleX == s.paddleX
    ensures s.outcome == Playing ==> s'.paddleX == Move(s.paddleX, keys, w)
    ensures s.outcome == Playing ==> s'.ball.x == s.ball.x + s.ball.dx && s'.ball.dx == SideWalls(s'.ball.x, s.ball.dx, w)
    ensures s.outcome == Playing ==> s'.ball.y == s.ball.y + BrickPhase(s).dy
    ensures s.outcome == Playing ==> s'.bricks == BrickPhase(s).bricks && s'.score == BrickPhase(s).score
    ensures s.outcome == Playing ==>
              var v := TopAndBottom(s'.ball.x, s'.ball.y, BrickPhase(s).dy, s.paddleX, h);
              && s'.ball.dy == v.dy
              && s'.outcome == (if BrickPhase(s).won then Won else if v.missed then Lost else Playing)
  {
    if s.outcome != Playing then s
    else
      var hit := BrickPhase(s);
      var x := s.ball.x + s.ball.dx;
      var y := s.ball.y + hit.dy;
      var dx := SideWalls(x, s.ball.dx, w);
      var v := TopAndBottom(x, y, hit.dy, s.paddleX, h);
      var outcome := if hit.won then Won else if v.missed then Lost else Playing;
      State(Ball(x, y, dx, v.dy), Move(s.paddleX, keys, w), hit.bricks, hit.score, outcome)
  }

  /** A sequence of frames, one per element of `inputs`. */
  function Run(s: State, inputs: seq<Keys>, w: real, h: real): (s': State)
    requires WellShaped(s.bricks)
    ensures WellShaped(s'.bricks)
    ensures s'.outcome == Playing ==> s.outcome == Playing
    decreases |inputs|
  {
    if |inputs| == 0 then s else Run(Tick(s, inputs[0], w, h), inputs[1..], w, h)
  }

  // ---------------------------------------------------------------------------
  // Invariants

  /** An arena wide enough for the paddle and tall enough for the brick field plus a ball's room to turn. */
  predicate ValidArena(w: real, h: real) {
    w >= PaddleWidth && h >= FieldBottom + BallRadius + 2.0 * Speed
  }

  /** The position the ball will reach with its current velocity lies within the walls. */
  predicate NextInArena(b: Ball, w: real, h: real) {
    BallRadius <= b.x + b.dx <= w - BallRadius && BallRadius <= b.y + b.dy <= h - BallRadius
  }

  /** The score and speed accounting that holds in every reachable state, whatever the arena. */
  ghost predicate Acc(s: State) {
    && WellShaped(s.bricks)
    && DeadLaidOut(s.bricks)
    && s.score == DeadCount(s.bricks)
    && Abs(s.ball.dx) == Speed && Abs(s.ball.dy) == Speed
    && (s.outcome == Won <==> AllDestroyed(s.bricks))
  }

  /** Everything that holds in every reachable state of a valid arena: the accounting, the paddle band, and the ball's next position. */
  ghost predicate Inv(s: State, w: real, h: real) {
    && Acc(s)
    && InBand(s.paddleX, w)
    && (s.outcome == Playing ==> NextInArena(s.ball, w, h))
  }

  /** The start state satisfies the accounting invariant in every arena. */
  lemma InitSatisfiesAcc(w: real, h: real)
    ensures Acc(Init(w, h))
  {
    var g := InitialGrid();
    assert !AllDestroyed(g) by {
      assert g[0][0].alive;
    }
  }

  /** The start state satisfies the whole invariant in a valid arena. */
  lemma InitSatisfiesInv(w: real, h: real)
    requires ValidArena(w, h)
    ensures Inv(Init(w, h), w, h)
  {
    InitSatisfiesAcc(w, h);
  }

  /**
    The brick phase of a running game either changes nothing but positions,
    or strikes the one standing brick under the ball, which then lies inside
    the band of rows.
   */
  lemma BrickPhaseCases(s: State)
    requires WellShaped(s.bricks)
    ensures var g := LayOut(s.bricks);
            var hit := BrickPhase(s);
            || hit == Impact(g, s.ball.dy, s.score, false)
            || exists c, r :: Hits(g, c, r, s.ball.x, s.ball.y) && hit == Strike(Impact(g, s.ball.dy, s.score, false), c, r)
  {
    var g := LayOut(s.bricks);
    ScanStrikesTheBrickUnderTheBall(Impact(g, s.ball.dy, s.score, false), s.ball.x, s.ball.y);
  }

  /**
    Score accounting for the brick phase: the score stays equal to the number
    of destroyed bricks, rises by at most one, and every destroyed brick keeps
    its laid-out position.
   */
  lemma BrickPhaseScoresAtMostOne(s: State)
    requires WellShaped(s.bricks) && DeadLaidOut(s.bricks) && s.score == DeadCount(s.bricks)
    ensures var hit := BrickPhase(s);
            && DeadLaidOut(hit.bricks)
            && hit.score == DeadCount(hit.bricks)
            && s.score <= hit.score <= s.score + 1
  {
    var g := LayOut(s.bricks);
    var st := Impact(g, s.ball.dy, s.score, false);
    LayOutKeepsCount(s.bricks);
    LayOutPlacesEveryBrick(s.bricks);
    ScanStrikesTheBrickUnderTheBall(st, s.ball.x, s.ball.y);
    if exists c, r :: Hits(g, c, r, s.ball.x, s.ball.y) {
      var c, r :| Hits(g, c, r, s.ball.x, s.ball.y);
      DestroyCountsOne(g, c, r);
      DestroyKeepsPlaces(g, c, r);
    }
  }

  /** The same accounting across a whole frame. */
  lemma TickScoresAtMostOne(s: State, keys: Keys, w: real, h: real)
    requires WellShaped(s.bricks) && DeadLaidOut(s.bricks) && s.score == DeadCount(s.bricks)
    ensures var s' := Tick(s, keys, w, h);
            && DeadLaidOut(s'.bricks)
            && s'.score == DeadCount(s'.bricks)
            && s.score <= s'.score <= s.score + 1
  {
    if s.outcome == Playing {
      BrickPhaseScoresAtMostOne(s);
    }
  }

  /** The win fires in the frame that destroys the last brick, and only then. */
  lemma TickWinsExactlyWhenFieldCleared(s: State, keys: Keys, w: real, h: real)
    requires Acc(s) && s.outcome == Playing
    ensures var s' := Tick(s, keys, w, h);
            (s'.outcome == Won <==> AllDestroyed(s'.bricks)) && (s'.outcome == Won <==> s'.score == BrickCount)
  {
    var s' := Tick(s, keys, w, h);
    TickScoresAtMostOne(s, keys, w, h);
    FullCountMeansAllDestroyed(s.bricks);
    FullCountMeansAllDestroyed(s'.bricks);
    BrickPhaseCases(s);
  }

  /**
    The bottom test: a ball whose next position passes the bottom wall, and
    that the top test did not already turn, bounces when its centre is over
    the paddle and ends the game otherwise (unless the same frame cleared the
    field, whose win was announced first).
   */
  lemma TickLosesExactlyWhenPaddleMisses(s: State, keys: Keys, w: real, h: real)
    requires WellShaped(s.bricks) && s.outcome == Playing
    ensures var hit := BrickPhase(s);
            var x := s.ball.x + s.ball.dx;
            var y := s.ball.y + hit.dy;
            var s' := Tick(s, keys, w, h);
            && (s'.outcome == Lost <==>
                  !hit.won && BallRadius <= y + hit.dy && y + hit.dy > h - BallRadius && !OverPaddle(x, s.paddleX))
            && (y + hit.dy < BallRadius ==> s'.ball.dy == -hit.dy && s'.outcome != Lost)
            && (BallRadius <= y + hit.dy && y + hit.dy > h - BallRadius && OverPaddle(x, s.paddleX) ==>
                  s'.ball.dy == -hit.dy && s'.outcome != Lost)
  {
  }

  /**
    The first frame: the bricks still hold position zero when the game starts,
    but the layout pass runs before the collision test, so a ball centred at
    (50, 40) strikes the brick in column 0, row 0, scores, and turns.
   */
  lemma FirstFrameStrikesLaidOutBrick(keys: Keys, w: real, h: real)
    requires ValidArena(w, h)
    ensures var s := Init(w, h).(ball := Ball(50.0, 40.0, Speed, -Speed));
            var s' := Tick(s, keys, w, h);
            && !s'.bricks[0][0].alive
            && s'.score == 1
            && s'.ball.dy == Speed
            && s'.outcome == Playing
  {
    var s := Init(w, h).(ball := Ball(50.0, 40.0, Speed, -Speed));
    var g := LayOut(s.bricks);
    assert Hits(g, 0, 0, 50.0, 40.0);
    ScanStrikesTheBrickUnderTheBall(Impact(g, -Speed, 0, false), 50.0, 40.0);
  }

  /**
    The frame-level collision: when a standing brick contains the ball's
    centre after the layout pass, the frame destroys that brick and no other,
    scores one and moves the ball back by its old vertical velocity; when none
    does, the frame only lays the field out and keeps the score.
   */
  lemma TickStrikesTheBrickUnderTheBall(s: State, keys: Keys, w: real, h: real)
    requires WellShaped(s.bricks) && s.outcome == Playing
    ensures var g := LayOut(s.bricks);
            var s' := Tick(s, keys, w, h);
            forall c, r :: Hits(g, c, r, s.ball.x, s.ball.y) ==>
              && !s'.bricks[c][r].alive
              && s'.score == s.score + 1
              && s'.ball.y == s.ball.y - s.ball.dy
              && (forall i, j :: InGrid(i, j) && (i, j) != (c, r) ==> s'.bricks[i][j] == g[i][j])
    ensures var g := LayOut(s.bricks);
            var s' := Tick(s, keys, w, h);
            (forall c, r :: !Hits(g, c, r, s.ball.x, s.ball.y)) ==>
              s'.bricks == g && s'.score == s.score && s'.ball.y == s.ball.y + s.ball.dy
  {
    var g := LayOut(s.bricks);
    ScanStrikesTheBrickUnderTheBall(Impact(g, s.ball.dy, s.score, false), s.ball.x, s.ball.y);
  }

  /** Velocity magnitudes never change, so the speed stays at two units per axis. */
  lemma TickKeepsSpeed(s: State, keys: Keys, w: real, h: real)
    requires WellShaped(s.bricks) && Abs(s.ball.dx) == Speed && Abs(s.ball.dy) == Speed
    ensures Abs(Tick(s, keys, w, h).ball.dx) == Speed && Abs(Tick(s, keys, w, h).ball.dy) == Speed
  {
  }

  /** The brick phase turns the ball only while its centre is within the band of brick rows. */
  lemma BrickPhaseTurnsOnlyInField(s: State)
    requires WellShaped(s.bricks)
    ensures BrickPhase(s).dy != s.ball.dy ==> BrickOffsetTop < s.ball.y < FieldBottom
  {
    var g := LayOut(s.bricks);
    ScanStrikesTheBrickUnderTheBall(Impact(g, s.ball.dy, s.score, false), s.ball.x, s.ball.y);
    if exists c, r :: Hits(g, c, r, s.ball.x, s.ball.y) {
      var c, r :| Hits(g, c, r, s.ball.x, s.ball.y);
      InsideLaidOutIsInField(c, r, s.ball.x, s.ball.y);
    }
  }

  /** The side-wall test keeps the ball's centre and its next position between the side walls. */
  lemma SideWallsKeepBallInside(x: real, dx: real, w: real)
    requires w >= PaddleWidth && Abs(dx) == Speed
    requires BallRadius <= x + dx <= w - BallRadius
    ensures var x' := x + dx;
            BallRadius <= x' <= w - BallRadius && BallRadius <= x' + SideWalls(x', dx, w) <= w - BallRadius
  {
  }

  /**
    The top and bottom tests keep the ball's centre and, unless the paddle
    missed, its next position between the top and bottom walls. `turned` says
    whether the brick phase flipped `dy`, which only happens among the bricks.
   */
  lemma TopAndBottomKeepBallInside(y: real, dy: real, dy': real, x: real, paddleX: real, h: real)
    requires h >= FieldBottom + BallRadius + 2.0 * Speed && Abs(dy) == Speed
    requires dy' == dy || dy' == -dy
    requires dy' == dy ==> BallRadius <= y + dy <= h - BallRadius
    requires dy' != dy ==> BrickOffsetTop < y < FieldBottom
    ensures var y' := y + dy';
            var v := TopAndBottom(x, y', dy', paddleX, h);
            && BallRadius <= y' <= h - BallRadius
            && (!v.missed ==> BallRadius <= y' + v.dy <= h - BallRadius)
  {
  }

  /**
    The walls are tested against the position after next, so in a running
    game the ball's centre never crosses a wall and its next position stays
    inside as long as the game goes on.
   */
  lemma TickKeepsBallInArena(s: State, keys: Keys, w: real, h: real)
    requires ValidArena(w, h) && WellShaped(s.bricks) && s.outcome == Playing
    requires Abs(s.ball.dx) == Speed && Abs(s.ball.dy) == Speed && NextInArena(s.ball, w, h)
    ensures var s' := Tick(s, keys, w, h);
            && BallRadius <= s'.ball.x <= w - BallRadius
            && BallRadius <= s'.ball.y <= h - BallRadius
            && (s'.outcome == Playing ==> NextInArena(s'.ball, w, h))
  {
    var hit := BrickPhase(s);
    var x := s.ball.x + s.ball.dx;
    var v := TopAndBottom(x, s.ball.y + hit.dy, hit.dy, s.paddleX, h);
    BrickPhaseTurnsOnlyInField(s);
    SideWallsKeepBallInside(s.ball.x, s.ball.dx, w);
    TopAndBottomKeepBallInside(s.ball.y, s.ball.dy, hit.dy, x, s.paddleX, h);
    assert Tick(s, keys, w, h).ball == Ball(x, s.ball.y + hit.dy, SideWalls(x, s.ball.dx, w), v.dy);
    assert Tick(s, keys, w, h).outcome == Playing ==> !v.missed;
  }

  /** Every frame preserves the accounting invariant, in every arena. */
  lemma TickPreservesAcc(s: State, keys: Keys, w: real, h: real)
    requires Acc(s)
    ensures Acc(Tick(s, keys, w, h))
  {
    var s' := Tick(s, keys, w, h);
    if s.outcome == Playing {
      TickScoresAtMostOne(s, keys, w, h);
      TickWinsExactlyWhenFieldCleared(s, keys, w, h);
      TickKeepsSpeed(s, keys, w, h);
      assert s'.score == DeadCount(s'.bricks);
      assert s'.outcome == Won <==> AllDestroyed(s'.bricks);
    }
  }

  /**
    The paddle step of a running frame, stated on the keys alone: right is
    taken exactly when the right flag is set and the paddle has room on the
    right; otherwise left is taken exactly when the left flag is set and the
    paddle is right of zero, even when the right flag is also set.
   */
  lemma TickPaddleFollowsKeys(s: State, keys: Keys, w: real, h: real)
    requires WellShaped(s.bricks) && s.outcome == Playing
    ensures var p := Tick(s, keys, w, h).paddleX;
            && (p == s.paddleX + PaddleStep <==> keys.rightPressed && s.paddleX < w - PaddleWidth)
            && (p == s.paddleX - PaddleStep <==>
                  !(keys.rightPressed && s.paddleX < w - PaddleWidth) && keys.leftPressed && s.paddleX > 0.0)
            && (p == s.paddleX <==> !(keys.rightPressed && s.paddleX < w - PaddleWidth) && !(keys.leftPressed && s.paddleX > 0.0))
  {
  }

  /**
    The side-wall bounce of a running frame: the moved ball keeps its
    horizontal direction exactly when the position after it lies within the
    side walls, touching included, and turns otherwise.
   */
  lemma TickBouncesOffSideWalls(s: State, keys: Keys, w: real, h: real)
    requires WellShaped(s.bricks) && s.outcome == Playing
    ensures var b := Tick(s, keys, w, h).ball;
            && b.x == s.ball.x + s.ball.dx
            && (BallRadius <= b.x + s.ball.dx <= w - BallRadius ==> b.dx == s.ball.dx)
            && (!(BallRadius <= b.x + s.ball.dx <= w - BallRadius) ==> b.dx == -s.ball.dx)
  {
  }

  /** Every frame keeps the paddle within one step of the arena, whatever keys are held. */
  lemma TickKeepsBand(s: State, keys: Keys, w: real, h: real)
    requires WellShaped(s.bricks) && InBand(s.paddleX, w)
    ensures InBand(Tick(s, keys, w, h).paddleX, w)
  {
    if s.outcome == Playing {
      MoveKeepsBand(s.paddleX, keys, w);
    }
  }

  /** Every frame preserves the invariant. */
  lemma TickPreservesInv(s: State, keys: Keys, w: real, h: real)
    requires ValidArena(w, h) && Inv(s, w, h)
    ensures Inv(Tick(s, keys, w, h), w, h)
  {
    TickPreservesAcc(s, keys, w, h);
    TickKeepsBand(s, keys, w, h);
    if s.outcome == Playing {
      TickKeepsBallInArena(s, keys, w, h);
    }
  }

  /** Any number of frames preserves the accounting invariant, in every arena. */
  lemma {:induction false} RunPreservesAcc(s: State, inputs: seq<Keys>, w: real, h: real)
    requires Acc(s)
    ensures Acc(Run(s, inputs, w, h))
    decreases |inputs|
  {
    if |inputs| > 0 {
      TickPreservesAcc(s, inputs[0], w, h);
      RunPreservesAcc(Tick(s, inputs[0], w, h), inputs[1..], w, h);
    }
  }

  /** Any number of frames keeps the paddle within one step of the arena. */
  lemma {:induction false} RunKeepsBand(s: State, inputs: seq<Keys>, w: real, h: real)
    requires WellShaped(s.bricks) && InBand(s.paddleX, w)
    ensures InBand(Run(s, inputs, w, h).paddleX, w)
    decreases |inputs|
  {
    if |inputs| > 0 {
      TickKeepsBand(s, inputs[0], w, h);
      RunKeepsBand(Tick(s, inputs[0], w, h), inputs[1..], w, h);
    }
  }

  /** Any number of frames preserves the invariant. */
  lemma {:induction false} RunPreservesInv(s: State, inputs: seq<Keys>, w: real, h: real)
    requires ValidArena(w, h) && Inv(s, w, h)
    ensures Inv(Run(s, inputs, w, h), w, h)
    decreases |inputs|
  {
    if |inputs| > 0 {
      TickPreservesInv(s, inputs[0], w, h);
      RunPreservesInv(Tick(s, inputs[0], w, h), inputs[1..], w, h);
    }
  }

  /**
    The facts that hold in every reachable state of every arena: the score
    counts the destroyed bricks and never exceeds 15, the game is won exactly
    when the score is 15, and both velocity components have magnitude two.
   */
  lemma ReachableStates(inputs: seq<Keys>, w: real, h: real)
    ensures var s := Run(Init(w, h), inputs, w, h);
            && s.score == DeadCount(s.bricks) <= BrickCount
            && (s.outcome == Won <==> s.score == BrickCount)
            && (s.outcome == Won <==> AllDestroyed(s.bricks))
            && Abs(s.ball.dx) == Speed && Abs(s.ball.dy) == Speed
  {
    InitSatisfiesAcc(w, h);
    RunPreservesAcc(Init(w, h), inputs, w, h);
    FullCountMeansAllDestroyed(Run(Init(w, h), inputs, w, h).bricks);
  }

  /**
    The paddle is never more than one step outside the arena. The band
    (-7, w - 68) is empty unless the arena is wider than 61, and the centred
    start position lies inside it exactly then.
   */
  lemma ReachablePaddleInBand(inputs: seq<Keys>, w: real, h: real)
    requires w > PaddleWidth - 2.0 * PaddleStep
    ensures -PaddleStep < Run(Init(w, h), inputs, w, h).paddleX < w - PaddleWidth + PaddleStep
  {
    RunKeepsBand(Init(w, h), inputs, w, h);
  }

  /** In a valid arena, the ball's next position lies within the walls in every reachable running state. */
  lemma ReachableBallInArena(inputs: seq<Keys>, w: real, h: real)
    requires ValidArena(w, h)
    ensures var s := Run(Init(w, h), inputs, w, h);
            s.outcome == Playing ==> NextInArena(s.ball, w, h)
  {
    InitSatisfiesInv(w, h);
    RunPreservesInv(Init(w, h), inputs, w, h);
  }

  /** A finished game stays exactly as it was, however many frames follow. */
  lemma {:induction false} RunFrozenAfterEnd(s: State, inputs: seq<Keys>, w: real, h: real)
    requires WellShaped(s.bricks) && s.outcome != Playing
    ensures Run(s, inputs, w, h) == s
    decreases |inputs|
  {
    if |inputs| > 0 {
      RunFrozenAfterEnd(s, inputs[1..], w, h);
    }
  }

  /** Over any run the score never falls and no destroyed brick comes back. */
  lemma {:induction false} RunIsMonotone(s: State, inputs: seq<Keys>, w: real, h: real)
    requires WellShaped(s.bricks)
    ensures var s' := Run(s, inputs, w, h);
            && s.score <= s'.score
            && forall c, r :: InGrid(c, r) && s'.bricks[c][r].alive ==> s.bricks[c][r].alive
    decreases |inputs|
  {
    if |inputs| > 0 {
      RunIsMonotone(Tick(s, inputs[0], w, h), inputs[1..], w, h);
    }
  }
}

=== FILE: input.dfy ===
/**
  The two movement flags of the game and the key handlers that set and clear
  them. A flag is true from the press of one of its keys until the release of
  one of its keys; any other key leaves both flags alone.
 */
module Input {

  datatype Keys = Keys(rightPressed: bool, leftPressed: bool)

  /** Both flags as they are before any key event. */
  const Released: Keys := Keys(false, false)

  datatype Direction = Right | Left

  /** The key names the handlers accept for each direction. */
  predicate Names(d: Direction, key: string) {
    match d
    case Right => key == "Right" || key == "ArrowRight"
    case Left => key == "Left" || key == "ArrowLeft"
  }

  function Pressed(k: Keys, d: Direction): bool {
    match d
    case Right => k.rightPressed
    case Left => k.leftPressed
  }

  /** The keydown handler: sets the flag of the direction the key names. */
  function KeyDown(k: Keys, key: string): (k': Keys)
    ensures forall d :: Pressed(k', d) == (Pressed(k, d) || Names(d, key))
  {
    if key == "Right" || key == "ArrowRight" then k.(rightPressed := true)
    else if key == "Left" || key == "ArrowLeft" then k.(leftPressed := true)
    else k
  }

  /** The keyup handler: clears the flag of the direction the key names. */
  function KeyUp(k: Keys, key: string): (k': Keys)
    ensures forall d :: Pressed(k', d) == (Pressed(k, d) && !Names(d, key))
  {
    if key == "Right" || key == "ArrowRight" then k.(rightPressed := false)
    else if key == "Left" || key == "ArrowLeft" then k.(leftPressed := false)
    else k
  }

  datatype KeyEvent = Down(key: string) | Up(key: string)

  function Handle(k: Keys, e: KeyEvent): Keys {
    match e
    case Down(key) => KeyDown(k, key)
    case Up(key) => KeyUp(k, key)
  }

  /** The flags after a sequence of key events, handled first to last. */
  function Replay(k: Keys, events: seq<KeyEvent>): (k': Keys)
    ensures forall d :: (forall i :: 0 <= i < |events| ==> !Names(d, events[i].key)) ==> Pressed(k', d) == Pressed(k, d)
    decreases |events|
  {
    if |events| == 0 then k else Replay(Handle(k, events[0]), events[1..])
  }

  /**
    Independent description of a flag: whether the last event naming the
    direction was a press, or the initial value when no event names it.
   */
  function LastSaysPressed(events: seq<KeyEvent>, d: Direction, initial: bool): bool
    decreases |events|
  {
    if |events| == 0 then initial
    else
      var e := events[|events| - 1];
      if Names(d, e.key) then e.Down? else LastSaysPressed(events[..|events| - 1], d, initial)
  }

  lemma {:induction false} ReplaySnoc(k: Keys, events: seq<KeyEvent>, e: KeyEvent)
    ensures Replay(k, events + [e]) == Handle(Replay(k, events), e)
    decreases |events|
  {
    if |events| > 0 {
      assert (events + [e])[1..] == events[1..] + [e];
      ReplaySnoc(Handle(k, events[0]), events[1..], e);
    }
  }

  /** Each flag is exactly what the last event naming its direction made it. */
  lemma {:induction false} ReplayFollowsLastEvent(k: Keys, events: seq<KeyEvent>, d: Direction)
    ensures Pressed(Replay(k, events), d) == LastSaysPressed(events, d, Pressed(k, d))
    decreases |events|
  {
    if |events| > 0 {
      var n := |events| - 1;
      assert events == events[..n] + [events[n]];
      ReplaySnoc(k, events[..n], events[n]);
      ReplayFollowsLastEvent(k, events[..n], d);
    }
  }

  /** A flag the last event left pressed, starting from `false`, was pressed by some event. */
  lemma {:induction false} LastPressHasWitness(events: seq<KeyEvent>, d: Direction)
    ensures LastSaysPressed(events, d, false) ==>
              exists i :: 0 <= i < |events| && events[i].Down? && Names(d, events[i].key)
    decreases |events|
  {
    if |events| > 0 {
      var n := |events| - 1;
      LastPressHasWitness(events[..n], d);
      if LastSaysPressed(events, d, false) && !Names(d, events[n].key) {
        var i :| 0 <= i < n && events[..n][i].Down? && Names(d, events[..n][i].key);
        assert events[i] == events[..n][i];
      }
    }
  }

  /**
    From the page's start, with both flags released: a flag is set exactly
    when the last event naming its direction was a press, and so only after
    some press of one of its keys.
   */
  lemma ReplayFromReleased(events: seq<KeyEvent>, d: Direction)
    ensures Pressed(Replay(Released, events), d) == LastSaysPressed(events, d, false)
    ensures Pressed(Replay(Released, events), d) ==>
              exists i :: 0 <= i < |events| && events[i].Down? && Names(d, events[i].key)
  {
    ReplayFollowsLastEvent(Released, events, d);
    LastPressHasWitness(events, d);
  }

  /** A press followed by the release of the same key leaves the flags as the release alone would. */
  lemma PressThenReleaseForgetsPress(k: Keys, key: string)
    ensures KeyUp(KeyDown(k, key), key) == KeyUp(k, key)
  {
  }
}

=== FILE: paddle.dfy ===
/**
  The paddle step at the end of every frame: seven units right or left,
  guarded by the paddle's position before the step. The guard is not a
  clamp, so a step can carry the paddle past either edge, by less than
  seven units.
 */
module Paddle {
  import opened Input

  const PaddleWidth: real := 75.0
  const PaddleStep: real := 7.0

  /** The paddle's new position; `w` is the arena width. */
  function Move(paddleX: real, keys: Keys, w: real): (p: real)
    ensures p == paddleX + PaddleStep || p == paddleX - PaddleStep || p == paddleX
    ensures p == paddleX + PaddleStep <==> keys.rightPressed && paddleX < w - PaddleWidth
    ensures p == paddleX - PaddleStep <==>
              !(keys.rightPressed && paddleX < w - PaddleWidth) && keys.leftPressed && paddleX > 0.0
  {
    if keys.rightPressed && paddleX < w - PaddleWidth then paddleX + PaddleStep
    else if keys.leftPressed && paddleX > 0.0 then paddleX - PaddleStep
    else paddleX
  }

  /** The band the paddle never leaves: less than one step beyond either edge. */
  predicate InBand(paddleX: real, w: real) {
    -PaddleStep < paddleX < w - PaddleWidth + PaddleStep
  }

  /** A step from inside the band stays inside the band, whatever keys are held. */
  lemma MoveKeepsBand(paddleX: real, keys: Keys, w: real)
    requires InBand(paddleX, w)
    ensures InBand(Move(paddleX, keys, w), w)
  {
  }

  /** With both keys held and no room on the right, the left branch still moves the paddle. */
  lemma BothKeysAtRightEdgeMovesLeft(paddleX: real, w: real)
    requires paddleX >= w - PaddleWidth && paddleX > 0.0
    ensures Move(paddleX, Keys(true, true), w) == paddleX - PaddleStep
  {
  }

  /** With room on the right, holding both keys moves right. */
  lemma BothKeysWithRoomMovesRight(paddleX: real, w: real)
    requires paddleX < w - PaddleWidth
    ensures Move(paddleX, Keys(true, true), w) == paddleX + PaddleStep
  {
  }

  /** The guard does not clamp: a paddle two units short of the right edge ends five units past it. */
  lemma RightStepOvershootsEdge()
    ensures Move(23.0, Keys(true, false), 100.0) == 30.0 > 100.0 - PaddleWidth
  {
  }
}
